=== FILE: README.md ===
# tempo-master: timed-ride controller and setup screens in Dafny

tempo-master is a cadence-training app. A rider picks a target cadence (RPM)
and a ride length. A controller, `RideSettings`, then counts the ride down once
per second. The rider can pause, resume or end the ride. Two setup screens feed
the controller:

- the timed-ride screen has a guarded cadence stepper and a duration picker;
- the interval screen has work and rest cadence steppers, duration and round
  pickers, and a total-time summary line.

This project models those three files:

- `ride.dfy` (module `Ride`) covers the controller. `RideState` is a snapshot
  of its six fields. `Started`, `Toggled`, `Ended` and `Ticked` are its
  transitions. `Second` is one period of the one-second timer, and `After` is
  any number of periods; time is counted in timer ticks. The class `RideSettings` has the mutable fields. Each of
  its four operations (`StartRide`, `TogglePause`, `EndRide`, `Tick`) is
  proved to produce `State() == F(old(State()))`, where F is the matching
  transition; `StartTimer` and `StopTimer` set only the timer flag. The
  lemmas state the countdown, end, pause and frame properties.
- `cadence.dfy` (module `Cadence`) holds the guarded ±5 stepper that both
  setup screens use. It also proves that the [60, 140] range invariant holds
  for any sequence of taps.
- `timed_ride_setup.dfy` and `interval_setup.dfy` model the two setup screens
  as classes over their state variables.
- `decimal.dfy` (module `Decimal`) models how an integer is shown as decimal
  text, and how that text is read back.

Behaviour of the code that the model keeps:

- **The ride ends on tick D + 1.** Let D = `rideDurationMinutes * 60`. The
  tick closure checks the clock before it decrements. So after D ticks the
  clock shows 0 and the ride is still on. The ride ends on the next tick
  (`Ride.RideTimeline`): the tick that finds the clock at 0 ends it.
- **Paused without riding.** `togglePause` does not check `isRiding`. So an
  idle controller can become paused while not riding (`Ride.PauseWhileIdle`).
  The state invariant the code does keep is `Ride.Consistent`:
  - paused means no timer is scheduled;
  - riding and not paused means a timer is scheduled;
  - not riding means the clock is at 0.
- **Resume after the end.** Pausing and then resuming a ride that has already
  ended schedules a new timer. Its first tick ends the ride again
  (`Ride.ResumeAfterEnd`).
- **Cadence is only changed by the setup screens.** The controller never
  writes `bpm`. The setup screens' guarded ±5 steps keep it within 60–140.

## Model

| member | source | states |
|---|---|---|
| `Ride.Initial` | tempo-master/RideSettings.swift:12-18 | a new controller is consistent, not riding, not paused, has no timer and a zero clock, with cadence 90 and a 60-minute ride (all six fields) |
| `Ride.Started` | tempo-master/RideSettings.swift:21-26 | startRide loads `rideDurationMinutes * 60` seconds, sets riding and not paused, schedules the timer, leaves cadence and length alone, and yields a consistent state |
| `Ride.Toggled` | tempo-master/RideSettings.swift:29-36 | togglePause flips the paused flag; a timer is scheduled exactly when the result is not paused; clock, riding flag and settings are unchanged; consistency is preserved |
| `Ride.Ended` | tempo-master/RideSettings.swift:39-44 | endRide leaves the controller not riding, not paused, with no timer and a zero clock; settings are unchanged |
| `Ride.Ticked` | tempo-master/RideSettings.swift:48-55 | a tick with time left takes exactly one second off and changes nothing else; a tick at zero is endRide; every tick either lowers the clock or leaves the ride ended; consistency is preserved |
| `Ride.Second` | tempo-master/RideSettings.swift:47-61 | one timer period runs the tick exactly when a timer is scheduled and otherwise changes nothing; it never raises the clock, and keeps settings and consistency |
| `Ride.After` | tempo-master/RideSettings.swift:47-56 | the repeating timer (`repeats: true`) over n periods with no control operation in between: n applications of `Second`, the last one outermost |
| `Ride.AfterKeepsSettings` | tempo-master/RideSettings.swift:21-55 | over any number of timer periods, cadence and ride length are unchanged, the clock never goes up, and consistency holds |
| `Ride.AfterAdditive` | tempo-master/RideSettings.swift:47-56 | n timer periods and then m more is the same as n + m periods |
| `Ride.FrozenWithoutTimer` | tempo-master/RideSettings.swift:58-61 | once the timer is stopped, no amount of waiting changes the state |
| `Ride.CountsDown` | tempo-master/RideSettings.swift:50-51 | during a running, unpaused ride with t seconds left, after k <= t ticks exactly t - k seconds remain and nothing else has changed |
| `Ride.EndsAfterZero` | tempo-master/RideSettings.swift:50-54 | after more ticks than the clock held seconds, the ride is in the endRide state, and it stays there |
| `Ride.RideTimeline` | tempo-master/RideSettings.swift:21-55 | after startRide, the ride is on after k ticks if and only if k <= D = minutes*60; then D - k seconds remain; from tick D + 1 on, the ride has ended |
| `Ride.PausedFreezes` | tempo-master/RideSettings.swift:29-36 | a paused controller is unchanged by any number of timer periods |
| `Ride.PauseResumeRoundTrip` | tempo-master/RideSettings.swift:29-36 | pause after n ticks of a ride, wait any number of periods, resume and ride m ticks: the result equals riding n + m ticks without a pause, whenever the ride was still on at the pause or at least one tick follows the resume |
| `Ride.ResumeWithoutTickAfterEnd` | tempo-master/RideSettings.swift:29-54 | the exception to the round trip: pausing and resuming a ride that has already ended leaves a timer scheduled on the ended ride until its next tick, where the unpaused ride has none |
| `Ride.EndIdempotent` | tempo-master/RideSettings.swift:39-44 | ending twice gives the same state as ending once |
| `Ride.ToggleTwice` | tempo-master/RideSettings.swift:29-36 | toggling twice restores the paused flag and leaves the clock and the riding flag alone; during a ride it restores the whole state |
| `Ride.ResumeAfterEnd` | tempo-master/RideSettings.swift:29-54 | pause and resume after the end schedules a timer again, and its first tick ends the ride once more |
| `Ride.PauseWhileIdle` | tempo-master/RideSettings.swift:29-33 | togglePause on an idle controller leaves it paused and not riding |
| `Ride.RideSettings.constructor` | tempo-master/RideSettings.swift:11-18 | the object starts in the initial state, which is consistent |
| `Ride.RideSettings.StartRide` | tempo-master/RideSettings.swift:21-26 | the new state is `Started` of the old one, and consistent |
| `Ride.RideSettings.TogglePause` | tempo-master/RideSettings.swift:29-36 | the new state is `Toggled` of the old one; consistency is preserved |
| `Ride.RideSettings.EndRide` | tempo-master/RideSettings.swift:39-44 | the new state is `Ended` of the old one, and consistent |
| `Ride.RideSettings.Tick` | tempo-master/RideSettings.swift:48-55 | runs only while a timer is scheduled; the new state is `Ticked` of the old one; consistency is preserved |
| `Ride.RideSettings.StartTimer` | tempo-master/RideSettings.swift:47-56 | afterwards a timer is scheduled; only the timer field changes |
| `Ride.RideSettings.StopTimer` | tempo-master/RideSettings.swift:58-61 | afterwards no timer is scheduled; only the timer field changes |
| `Cadence.StepDown` | tempo-master/TimedRideSetupView.swift:38-40 | the minus action changes the cadence exactly when it is above 60, and then by -5; it keeps a cadence within [60, 140] and a multiple of 5 |
| `Cadence.StepsUndoEachOther` | tempo-master/IntervalSetupView.swift:51-67 | within range, a minus step that changes the cadence is undone by plus, and a plus step by minus |
| `Cadence.StepUp` | tempo-master/TimedRideSetupView.swift:54-56 | the plus action changes the cadence exactly when it is below 140, and then by +5; it keeps the range invariant |
| `Cadence.PressAllInRange` | tempo-master/IntervalSetupView.swift:51-67 | any sequence of minus/plus taps keeps a cadence that starts in range within [60, 140] and a multiple of 5 |
| `TimedRideSetupView.MinusDisabled` | tempo-master/TimedRideSetupView.swift:46 | the minus button is disabled when the cadence is at or below 60 |
| `TimedRideSetupView.PlusDisabled` | tempo-master/TimedRideSetupView.swift:62 | the plus button is disabled when the cadence is at or above 140 |
| `TimedRideSetupView.DisabledIffNoEffect` | tempo-master/TimedRideSetupView.swift:37-62 | each stepper button is disabled exactly when its guarded action would leave the cadence unchanged |
| `TimedRideSetupView.StartedClockBounds` | tempo-master/TimedRideSetupView.swift:76-77 | with a ride length the picker offers (1–180 minutes), startRide puts between 60 and 10800 seconds on the clock |
| `TimedRideSetupView.TimedRideSetup.constructor` | tempo-master/TimedRideSetupView.swift:11-12 | the screen owns a fresh controller in its initial state, and its cadence and length are in range |
| `TimedRideSetupView.TimedRideSetup.MinusTapped` | tempo-master/TimedRideSetupView.swift:37-46 | only the controller's cadence changes, to `StepDown` of the old one; the screen invariant holds |
| `TimedRideSetupView.TimedRideSetup.PlusTapped` | tempo-master/TimedRideSetupView.swift:53-62 | only the controller's cadence changes, to `StepUp` of the old one; the screen invariant holds |
| `TimedRideSetupView.TimedRideSetup.PickDuration` | tempo-master/TimedRideSetupView.swift:76-77 | only the ride length changes, to the picked value in 1–180 |
| `TimedRideSetupView.TimedRideSetup.StartTapped` | tempo-master/TimedRideSetupView.swift:90-92 | the controller's new state is `Started` of the old one, with 60 to 10800 seconds on the clock, and the screen navigates to the ride |
| `IntervalSetupView.TotalMinutes` | tempo-master/IntervalSetupView.swift:242 | the workout length in minutes, `(workMinutes + restMinutes) * rounds` |
| `IntervalSetupView.TotalBounds` | tempo-master/IntervalSetupView.swift:242 | with the picker ranges (work 1–20 at :85, rest 1–10 at :152, rounds 1–20 at :179), the total is between 2 and 600 minutes |
| `IntervalSetupView.Summarize` | tempo-master/IntervalSetupView.swift:241-250 | hours*60 + minutes equals the total, with minutes < 60; the hours form is chosen exactly when the total is at least 60 minutes |
| `IntervalSetupView.Render` | tempo-master/IntervalSetupView.swift:245-249 | the displayed summary line: "Total: " followed by the amount text |
| `IntervalSetupView.Amount` | tempo-master/IntervalSetupView.swift:246-248 | the text after "Total: ": "<h>h <m>m" for the hours form, "<m> minutes" otherwise, each number in decimal |
| `IntervalSetupView.ParseRender` | tempo-master/IntervalSetupView.swift:245-249 | the summary text ("Total: Xh Ym" or "Total: M minutes") reads back as exactly the summary it shows |
| `IntervalSetupView.ParseAmount` | tempo-master/IntervalSetupView.swift:245-249 | the text after "Total: " reads back as the summary, in both shapes |
| `IntervalSetupView.ParseHoursUnit` | tempo-master/IntervalSetupView.swift:246 | the "h Ym" tail of the hours form reads back as hours and minutes |
| `IntervalSetupView.RenderOfParse` | tempo-master/IntervalSetupView.swift:245-249 | any text that reads back as a summary is exactly that summary's displayed line (no leading zeros, no other spellings) |
| `IntervalSetupView.AmountOfParse` | tempo-master/IntervalSetupView.swift:245-249 | text after "Total: " that reads back as a summary is exactly that summary's amount text |
| `IntervalSetupView.UnitOfParse` | tempo-master/IntervalSetupView.swift:245-249 | a number followed by a unit tail that reads back as a summary is that summary's amount text |
| `IntervalSetupView.ParseIsInverse` | tempo-master/IntervalSetupView.swift:245-249 | a line reads back as a summary if and only if it is that summary's displayed line |
| `IntervalSetupView.RequestOf` | tempo-master/IntervalSetupView.swift:206-211 | work and rest durations are passed in whole seconds, and each reads back as its minutes; cadences and rounds are passed unchanged |
| `IntervalSetupView.IntervalSetup.constructor` | tempo-master/IntervalSetupView.swift:14-18 | defaults are work 100 RPM for 5 minutes, rest 70 RPM for 2 minutes, and 5 rounds; all are in range |
| `IntervalSetupView.IntervalSetup.WorkMinusTapped` | tempo-master/IntervalSetupView.swift:52 | the work cadence becomes `StepDown` of the old one and stays in range; nothing else changes |
| `IntervalSetupView.IntervalSetup.WorkPlusTapped` | tempo-master/IntervalSetupView.swift:65 | the work cadence becomes `StepUp` of the old one and stays in range; nothing else changes |
| `IntervalSetupView.IntervalSetup.RestMinusTapped` | tempo-master/IntervalSetupView.swift:119 | the rest cadence becomes `StepDown` of the old one and stays in range; nothing else changes |
| `IntervalSetupView.IntervalSetup.RestPlusTapped` | tempo-master/IntervalSetupView.swift:132 | the rest cadence becomes `StepUp` of the old one and stays in range; nothing else changes |
| `IntervalSetupView.IntervalSetup.PickWorkMinutes` | tempo-master/IntervalSetupView.swift:84-86 | only the work minutes change, to the picked value in 1–20 |
| `IntervalSetupView.IntervalSetup.PickRestMinutes` | tempo-master/IntervalSetupView.swift:151-153 | only the rest minutes change, to the picked value in 1–10 |
| `IntervalSetupView.IntervalSetup.PickRounds` | tempo-master/IntervalSetupView.swift:178-180 | only the round count changes, to the picked value in 1–20 |
| `IntervalSetupView.IntervalSetup.TotalTimeString` | tempo-master/IntervalSetupView.swift:241-250 | the displayed line reads back as `Summarize` of (work + rest) * rounds; with `ParseIsInverse`, this fixes the exact text |
| `IntervalSetupView.IntervalSetup.StartTapped` | tempo-master/IntervalSetupView.swift:205-214 | returns the arguments given by `RequestOf` for the current choices, and navigates to the ride |
| `Decimal.DigitChar` | tempo-master/IntervalSetupView.swift:246 | maps a digit value to the character that denotes it |
| `Decimal.Digits` | tempo-master/IntervalSetupView.swift:246 | an integer is shown as a non-empty string of digits with no leading zero |
| `Decimal.LeadingNonZero` | tempo-master/IntervalSetupView.swift:246 | digits that start with a non-zero digit denote at least 1, and at least 10 when there are two or more |
| `Decimal.DigitsOfValue` | tempo-master/IntervalSetupView.swift:246 | a non-empty run of digits with no leading zero is the printed text of the number it denotes |
| `Decimal.ValueOfDigits` | tempo-master/IntervalSetupView.swift:246 | reading the digits of n back gives n |
| `Decimal.SplitDigits` | tempo-master/IntervalSetupView.swift:246-248 | splits text into its longest leading run of digits and the rest |
| `Decimal.SplitAfterDigits` | tempo-master/IntervalSetupView.swift:246-248 | digits followed by text that does not start with a digit split back into exactly those two parts |

## Left out

- Timer scheduling is abstracted. The Foundation `Timer`, its run-loop firing
  and the `[weak self]` capture become the flag `timerActive` and the method
  `Tick`. `Ride.Second` is one timer period: it runs the tick while a timer
  is scheduled.
- Time is counted in timer periods, and control operations fall between two
  ticks. In the code each `startRide` and each resume schedules a new timer,
  whose first tick comes a full second after the call. So progress within a
  second before a pause is lost: riding n + m seconds with a pause in between
  can give one tick fewer than n + m. `Ride.PauseResumeRoundTrip` counts
  ticks, not wall-clock seconds.
- Overlapping timers are not modelled. `startRide` and the resume branch of
  `togglePause` schedule a new timer without invalidating one that is already
  running. The model has one boolean, so it has at most one timer.
- `TimeInterval` is a floating-point type. Here `timeRemaining` is a whole
  number of seconds, because the code only stores `minutes * 60` and
  decrements by 1.
- `rideDurationMinutes`, the interval minutes and the round count are
  naturals. Swift `Int` overflow cannot occur with the picker ranges.
- `Decimal.Digits` models Swift string interpolation of an `Int`. Negative
  values cannot occur here.
- The interval controller entry point `startInterval` is not part of this
  model, because its definition is not in these files. Its phase engine, its
  elapsed-time accounting and the free-ride mode are left out with it.
  `IntervalSetup.StartTapped` models only the arguments the button passes.
- The interval screen's own controller receives `startInterval`
  (IntervalSetupView.swift:206) and is handed to the ride display
  (IntervalSetupView.swift:236). Both are left out, so the model has no field
  for it.
- The preset workouts (PreDefinedWorkoutsView.swift) are not modelled. They
  are constant argument lists for `startInterval`, plus a colour lookup.
- The bouncing-ball display (ContentView.swift) is not modelled. It is
  floating-point animation timing and is not connected to the controller.
- SwiftUI layout, styling and navigation are not modelled, including
  MainMenuView.swift. Navigation is kept only as the `navigateToRide` flag.

=== FILE: cadence.dfy ===
/** The cadence stepper shared by the setup screens: a minus and a plus button
    that move a cadence in steps of 5, each guarded so that the cadence stays
    between 60 and 140 (TimedRideSetupView.swift, IntervalSetupView.swift). */
module Cadence {

  const MinCadence := 60
  const MaxCadence := 140
  const CadenceStep := 5

  /** The cadences a stepper can show. */
  predicate InRange(bpm: int) {
    MinCadence <= bpm <= MaxCadence && bpm % CadenceStep == 0
  }

  /** The minus action: steps down only while above the minimum. */
  function StepDown(bpm: int): (r: int)
    ensures r == bpm <==> bpm <= MinCadence
    ensures r != bpm ==> r == bpm - CadenceStep
    ensures InRange(bpm) ==> InRange(r)
  {
    if bpm > MinCadence then bpm - CadenceStep else bpm
  }

  /** The plus action: steps up only while below the maximum. */
  function StepUp(bpm: int): (r: int)
    ensures r == bpm <==> bpm >= MaxCadence
    ensures r != bpm ==> r == bpm + CadenceStep
    ensures InRange(bpm) ==> InRange(r)
  {
    if bpm < MaxCadence then bpm + CadenceStep else bpm
  }

  /** Within range, each step that changes the cadence is undone by the
      opposite button. */
  lemma StepsUndoEachOther(bpm: int)
    requires InRange(bpm)
    ensures StepDown(bpm) != bpm ==> StepUp(StepDown(bpm)) == bpm
    ensures StepUp(bpm) != bpm ==> StepDown(StepUp(bpm)) == bpm
  {
  }

  datatype Tap = Minus | Plus

  function Press(bpm: int, t: Tap): int {
    match t
    case Minus => StepDown(bpm)
    case Plus => StepUp(bpm)
  }

  /** The cadence after a sequence of button taps, first tap first. */
  function PressAll(bpm: int, taps: seq<Tap>): int
    decreases |taps|
  {
    if taps == [] then bpm else PressAll(Press(bpm, taps[0]), taps[1..])
  }

  /** Whatever the user taps, a cadence that starts in range stays in range:
      between 60 and 140 and a multiple of 5. */
  lemma {:induction false} PressAllInRange(bpm: int, taps: seq<Tap>)
    requires InRange(bpm)
    ensures InRange(PressAll(bpm, taps))
    decreases |taps|
  {
    if taps != [] {
      PressAllInRange(Press(bpm, taps[0]), taps[1..]);
    }
  }
}

=== FILE: decimal.dfy ===
/** Decimal text of non-negative integers, as string interpolation of an Int
    produces it, and the reading of such text back into a number. */
module Decimal {

  predicate IsDigit(c: char) {
    '0' <= c <= '9'
  }

  predicate AllDigits(s: string) {
    forall i :: 0 <= i < |s| ==> IsDigit(s[i])
  }

  /** A run of digits as an Int is printed: non-empty, no leading zero. */
  predicate Canonical(s: string) {
    |s| >= 1 && AllDigits(s) && (|s| > 1 ==> s[0] != '0')
  }

  function DigitChar(d: nat): (c: char)
    requires d < 10
    ensures IsDigit(c) && c as int - '0' as int == d
  {
    (d + '0' as int) as char
  }

  /** The decimal text of n: at least one digit, no leading zero. */
  function Digits(n: nat): (s: string)
    ensures Canonical(s)
    decreases n
  {
    if n < 10 then [DigitChar(n)] else Digits(n / 10) + [DigitChar(n % 10)]
  }

  /** The number a string of digits denotes. */
  function ValueOf(s: string): nat
    requires AllDigits(s)
    decreases |s|
  {
    if s == [] then 0
    else ValueOf(s[..|s| - 1]) * 10 + (s[|s| - 1] as int - '0' as int)
  }

  /** Reading the decimal text of n gives back n. */
  lemma {:induction false} ValueOfDigits(n: nat)
    ensures ValueOf(Digits(n)) == n
    decreases n
  {
    if n >= 10 {
      var s := Digits(n);
      assert s[..|s| - 1] == Digits(n / 10);
      ValueOfDigits(n / 10);
    }
  }

  /** A run of digits that starts with a non-zero digit denotes a positive
      number, at least 10 when it has two digits or more. */
  lemma {:induction false} LeadingNonZero(s: string)
    requires |s| >= 1 && AllDigits(s) && s[0] != '0'
    ensures ValueOf(s) >= 1
    ensures |s| >= 2 ==> ValueOf(s) >= 10
    decreases |s|
  {
    if |s| >= 2 {
      var init := s[..|s| - 1];
      assert init[0] == s[0];
      LeadingNonZero(init);
    }
  }

  /** A canonical run of digits is the decimal text of the number it denotes. */
  lemma {:induction false} DigitsOfValue(s: string)
    requires Canonical(s)
    ensures Digits(ValueOf(s)) == s
    decreases |s|
  {
    if |s| >= 2 {
      var init := s[..|s| - 1];
      assert init[0] == s[0];
      LeadingNonZero(s);
      DigitsOfValue(init);
      var n := ValueOf(s);
      assert n / 10 == ValueOf(init) && n % 10 == s[|s| - 1] as int - '0' as int;
      assert DigitChar(n % 10) == s[|s| - 1];
      assert init + [s[|s| - 1]] == s;
    }
  }

  /** Splits a string into its longest leading run of digits and the rest. */
  function SplitDigits(s: string): (p: (string, string))
    ensures p.0 + p.1 == s && AllDigits(p.0)
    ensures p.1 == [] || !IsDigit(p.1[0])
    decreases |s|
  {
    if s != [] && IsDigit(s[0]) then
      var q := SplitDigits(s[1..]);
      ([s[0]] + q.0, q.1)
    else ([], s)
  }

  /** Digits followed by text that does not start with a digit split back into
      exactly those two parts. */
  lemma {:induction false} SplitAfterDigits(d: string, rest: string)
    requires AllDigits(d)
    requires rest == [] || !IsDigit(rest[0])
    ensures SplitDigits(d + rest) == (d, rest)
    decreases |d|
  {
    if d != [] {
      var s := d + rest;
      assert s[0] == d[0] && IsDigit(s[0]);
      assert s[1..] == d[1..] + rest;
      SplitAfterDigits(d[1..], rest);
      assert [d[0]] + d[1..] == d;
    } else {
      assert d + rest == rest;
    }
  }
}

=== FILE: interval_setup.dfy ===
/** The interval setup screen (IntervalSetupView.swift): cadence steppers for
    the work and rest phases, pickers for the work minutes (1 to 20), rest
    minutes (1 to 10) and rounds (1 to 20), a total-time summary line, and a
    start button that hands the chosen workout, durations in seconds, to the
    controller. */
module IntervalSetupView {
  import opened Cadence
  import opened Decimal

  const DefaultWorkBpm := 100
  const DefaultWorkMinutes := 5
  const DefaultRestBpm := 70
  const DefaultRestMinutes := 2
  const DefaultRounds := 5

  const MaxWorkMinutes := 20
  const MaxRestMinutes := 10
  const MaxRounds := 20

  /** The workout's length in minutes: every round has a work and a rest phase. */
  function TotalMinutes(workMinutes: nat, restMinutes: nat, rounds: nat): nat {
    (workMinutes + restMinutes) * rounds
  }

  /** With the values the pickers offer, a workout lasts 2 to 600 minutes. */
  lemma TotalBounds(workMinutes: nat, restMinutes: nat, rounds: nat)
    requires 1 <= workMinutes <= MaxWorkMinutes
    requires 1 <= restMinutes <= MaxRestMinutes
    requires 1 <= rounds <= MaxRounds
    ensures 2 <= TotalMinutes(workMinutes, restMinutes, rounds) <= 600
  {
  }

  /** The two shapes of the summary line. */
  datatype Summary =
    | HoursAndMinutes(hours: nat, minutes: nat)
    | MinutesOnly(minutes: nat)

  /** The number of minutes a summary stands for. */
  function Minutes(s: Summary): nat {
    match s
    case HoursAndMinutes(h, m) => h * 60 + m
    case MinutesOnly(m) => m
  }

  /** Splits a total into whole hours and leftover minutes; hours are shown
      exactly when the total is at least an hour. */
  function Summarize(total: nat): (s: Summary)
    ensures Minutes(s) == total && s.minutes < 60
    ensures s.HoursAndMinutes? <==> total >= 60
    ensures s.HoursAndMinutes? ==> s.hours > 0
  {
    var hours := total / 60;
    var minutes := total % 60;
    if hours > 0 then HoursAndMinutes(hours, minutes) else MinutesOnly(minutes)
  }

  /** The summary line as displayed. */
  function Render(s: Summary): string {
    "Total: " + Amount(s)
  }

  /** The part of the line after "Total: ". */
  function Amount(s: Summary): string {
    match s
    case HoursAndMinutes(h, m) => Digits(h) + "h " + Digits(m) + "m"
    case MinutesOnly(m) => Digits(m) + " minutes"
  }

  /** Reads a summary line back; None for text that is not one. */
  function ParseSummary(text: string): Option<Summary> {
    if |text| < 7 || text[..7] != "Total: " then None else ParseCount(text[7..])
  }

  /** The leading number of a summary, then what follows it; a number must be
      written as an Int is printed, with no leading zero. */
  function ParseCount(body: string): Option<Summary> {
    var split := SplitDigits(body);
    if !Canonical(split.0) then None else ParseUnit(ValueOf(split.0), split.1)
  }

  /** " minutes" ends a minutes-only line; "h " goes on to the minutes. */
  function ParseUnit(n: nat, rest: string): Option<Summary> {
    if rest == " minutes" then Some(MinutesOnly(n))
    else if |rest| < 2 || rest[..2] != "h " then None
    else ParseMinutesAfterHours(n, rest[2..])
  }

  function ParseMinutesAfterHours(hours: nat, rest: string): Option<Summary> {
    var split := SplitDigits(rest);
    if Canonical(split.0) && split.1 == "m" then Some(HoursAndMinutes(hours, ValueOf(split.0))) else None
  }

  datatype Option<T> = None | Some(value: T)

  /** The displayed line determines the summary: both shapes can be told apart
      and both numbers read back. */
  lemma ParseRender(s: Summary)
    ensures ParseSummary(Render(s)) == Some(s)
  {
    var text := Render(s);
    assert text[..7] == "Total: " && text[7..] == Amount(s);
    ParseAmount(s);
  }

  lemma ParseAmount(s: Summary)
    ensures ParseCount(Amount(s)) == Some(s)
  {
    match s
    case HoursAndMinutes(h, m) =>
      var tail := "h " + Digits(m) + "m";
      assert Amount(s) == Digits(h) + tail;
      SplitAfterDigits(Digits(h), tail);
      ValueOfDigits(h);
      ParseHoursUnit(h, m);
    case MinutesOnly(m) =>
      SplitAfterDigits(Digits(m), " minutes");
      ValueOfDigits(m);
  }

  lemma ParseHoursUnit(h: nat, m: nat)
    ensures ParseUnit(h, "h " + Digits(m) + "m") == Some(HoursAndMinutes(h, m))
  {
    var minutesPart := Digits(m) + "m";
    var tail := "h " + minutesPart;
    assert "h " + Digits(m) + "m" == tail;
    assert tail[0] == 'h' && tail[..2] == "h " && tail[2..] == minutesPart;
    SplitAfterDigits(Digits(m), "m");
    ValueOfDigits(m);
  }

  /** Only the displayed lines read back, each as the summary it shows. */
  lemma RenderOfParse(text: string, s: Summary)
    requires ParseSummary(text) == Some(s)
    ensures text == Render(s)
  {
    assert text == "Total: " + text[7..];
    AmountOfParse(text[7..], s);
  }

  lemma AmountOfParse(body: string, s: Summary)
    requires ParseCount(body) == Some(s)
    ensures body == Amount(s)
  {
    var split := SplitDigits(body);
    DigitsOfValue(split.0);
    UnitOfParse(ValueOf(split.0), split.1, s);
  }

  lemma UnitOfParse(n: nat, rest: string, s: Summary)
    requires ParseUnit(n, rest) == Some(s)
    ensures Digits(n) + rest == Amount(s)
  {
    if rest != " minutes" {
      var minutesPart := rest[2..];
      assert rest == "h " + minutesPart;
      var split := SplitDigits(minutesPart);
      DigitsOfValue(split.0);
      assert minutesPart == Digits(s.minutes) + "m";
      assert Digits(n) + rest == Digits(n) + "h " + Digits(s.minutes) + "m";
    }
  }

  /** A line parses as a summary exactly when it is that summary's rendering. */
  lemma ParseIsInverse(text: string, s: Summary)
    ensures ParseSummary(text) == Some(s) <==> text == Render(s)
  {
    if ParseSummary(text) == Some(s) {
      RenderOfParse(text, s);
    }
    if text == Render(s) {
      ParseRender(s);
    }
  }

  /** The arguments the start button passes to the controller. */
  datatype IntervalRequest = IntervalRequest(
    workBpm: int,
    workDurationSeconds: nat,
    restBpm: int,
    restDurationSeconds: nat,
    totalRounds: nat)

  /** Converts the chosen minutes to seconds and passes everything else
      unchanged; the minutes can be read back from the seconds. */
  function RequestOf(workBpm: int, workMinutes: nat, restBpm: int, restMinutes: nat, rounds: nat)
    : (req: IntervalRequest)
    ensures req.workDurationSeconds % 60 == 0 && req.workDurationSeconds / 60 == workMinutes
    ensures req.restDurationSeconds % 60 == 0 && req.restDurationSeconds / 60 == restMinutes
    ensures req.workBpm == workBpm && req.restBpm == restBpm && req.totalRounds == rounds
  {
    IntervalRequest(workBpm, workMinutes * 60, restBpm, restMinutes * 60, rounds)
  }

  class IntervalSetup {
    var workBpm: int
    var workMinutes: nat
    var restBpm: int
    var restMinutes: nat
    var rounds: nat
    var navigateToRide: bool

    ghost predicate Valid()
      reads this
    {
      && InRange(workBpm) && InRange(restBpm)
      && 1 <= workMinutes <= MaxWorkMinutes
      && 1 <= restMinutes <= MaxRestMinutes
      && 1 <= rounds <= MaxRounds
    }

    constructor ()
      ensures Valid() && !navigateToRide
      ensures workBpm == DefaultWorkBpm && workMinutes == DefaultWorkMinutes
      ensures restBpm == DefaultRestBpm && restMinutes == DefaultRestMinutes
      ensures rounds == DefaultRounds
    {
      workBpm := DefaultWorkBpm;
      workMinutes := DefaultWorkMinutes;
      restBpm := DefaultRestBpm;
      restMinutes := DefaultRestMinutes;
      rounds := DefaultRounds;
      navigateToRide := false;
    }

    method WorkMinusTapped()
      requires Valid()
      modifies this`workBpm
      ensures Valid() && workBpm == StepDown(old(workBpm))
    {
      if workBpm > MinCadence { workBpm := workBpm - CadenceStep; }
    }

    method WorkPlusTapped()
      requires Valid()
      modifies this`workBpm
      ensures Valid() && workBpm == StepUp(old(workBpm))
    {
      if workBpm < MaxCadence { workBpm := workBpm + CadenceStep; }
    }

    method RestMinusTapped()
      requires Valid()
      modifies this`restBpm
      ensures Valid() && restBpm == StepDown(old(restBpm))
    {
      if restBpm > MinCadence { restBpm := restBpm - CadenceStep; }
    }

    method RestPlusTapped()
      requires Valid()
      modifies this`restBpm
      ensures Valid() && restBpm == StepUp(old(restBpm))
    {
      if restBpm < MaxCadence { restBpm := restBpm + CadenceStep; }
    }

    /** The three pickers select one of the values they list. */
    method PickWorkMinutes(minutes: nat)
      requires Valid() && 1 <= minutes <= MaxWorkMinutes
      modifies this`workMinutes
      ensures Valid() && workMinutes == minutes
    {
      workMinutes := minutes;
    }

    method PickRestMinutes(minutes: nat)
      requires Valid() && 1 <= minutes <= MaxRestMinutes
      modifies this`restMinutes
      ensures Valid() && restMinutes == minutes
    {
      restMinutes := minutes;
    }

    method PickRounds(count: nat)
      requires Valid() && 1 <= count <= MaxRounds
      modifies this`rounds
      ensures Valid() && rounds == count
    {
      rounds := count;
    }

    /** The summary line under the pickers; it reads back as the workout's
        total, split into hours and minutes once it reaches an hour. */
    function TotalTimeString(): (text: string)
      reads this
      ensures ParseSummary(text) == Some(Summarize(TotalMinutes(workMinutes, restMinutes, rounds)))
    {
      var s := Summarize(TotalMinutes(workMinutes, restMinutes, rounds));
      ParseRender(s);
      Render(s)
    }

    /** The start button: returns the arguments it passes to the controller's
        interval entry point and navigates to the ride display. */
    method StartTapped() returns (req: IntervalRequest)
      modifies this`navigateToRide
      ensures navigateToRide
      ensures req == RequestOf(workBpm, workMinutes, restBpm, restMinutes, rounds)
    {
      req := RequestOf(workBpm, workMinutes, restBpm, restMinutes, rounds);
      navigateToRide := true;
    }
  }
}

=== FILE: ride.dfy ===
/** The timed-ride session controller (class RideSettings, RideSettings.swift).

    The controller holds the target cadence, the chosen ride length, a countdown
    in whole seconds, the riding and paused flags, and an optional repeating
    one-second timer. The timer handle is modelled by the flag `timerActive`
    (a timer is scheduled) and the timer's closure by `Tick`, which runs only
    while a timer is scheduled. `RideState` is a snapshot of all six fields; the
    functions over it specify the class's methods, and the lemmas state what the
    countdown, pause and end operations promise over many timer periods. */
module Ride {

  /** Field defaults of a freshly created controller. */
  const DefaultBpm := 90
  const DefaultDurationMinutes := 60

  const SecondsPerMinute := 60

  datatype RideState = RideState(
    bpm: int,
    rideDurationMinutes: nat,
    timeRemaining: nat,
    isRiding: bool,
    isPaused: bool,
    timerActive: bool)

  /** What every reachable controller state satisfies: a paused controller has
      no timer, a running unpaused ride has one, and an idle controller has
      nothing left on the clock. */
  predicate Consistent(r: RideState) {
    && (r.isPaused ==> !r.timerActive)
    && (r.isRiding && !r.isPaused ==> r.timerActive)
    && (!r.isRiding ==> r.timeRemaining == 0)
  }

  /** The configuration fields, which no controller operation writes. */
  predicate SameSettings(a: RideState, b: RideState) {
    a.bpm == b.bpm && a.rideDurationMinutes == b.rideDurationMinutes
  }

  /** The controller as created: idle, default cadence and length, no timer. */
  function Initial(): (r: RideState)
    ensures Consistent(r) && !r.isRiding && !r.isPaused && !r.timerActive
    ensures r.timeRemaining == 0
    ensures r.bpm == DefaultBpm && r.rideDurationMinutes == DefaultDurationMinutes
  {
    RideState(DefaultBpm, DefaultDurationMinutes, 0, false, false, false)
  }

  /** startRide: the clock is loaded with the whole ride, in seconds. */
  function Started(r: RideState): (r': RideState)
    ensures r'.timeRemaining == r.rideDurationMinutes * SecondsPerMinute
    ensures r'.isRiding && !r'.isPaused && r'.timerActive
    ensures SameSettings(r, r') && Consistent(r')
  {
    r.(timeRemaining := r.rideDurationMinutes * SecondsPerMinute,
       isRiding := true, isPaused := false, timerActive := true)
  }

  /** togglePause: flips the paused flag; pausing stops the timer and resuming
      schedules one, whatever the riding flag says. */
  function Toggled(r: RideState): (r': RideState)
    ensures r'.isPaused == !r.isPaused
    ensures r'.timerActive <==> !r'.isPaused
    ensures r'.timeRemaining == r.timeRemaining && r'.isRiding == r.isRiding
    ensures SameSettings(r, r')
    ensures Consistent(r) ==> Consistent(r')
  {
    var paused := !r.isPaused;
    r.(isPaused := paused, timerActive := !paused)
  }

  /** endRide: stops the timer and returns the controller to idle. */
  function Ended(r: RideState): (r': RideState)
    ensures !r'.isRiding && !r'.isPaused && !r'.timerActive && r'.timeRemaining == 0
    ensures SameSettings(r, r') && Consistent(r')
  {
    r.(timerActive := false, isRiding := false, isPaused := false, timeRemaining := 0)
  }

  /** The timer closure: check before decrement, so the tick that finds the
      clock at zero ends the ride, and every other tick takes exactly one second
      off and changes nothing else. */
  function Ticked(r: RideState): (r': RideState)
    requires r.timerActive
    ensures r.timeRemaining > 0 ==> r' == r.(timeRemaining := r.timeRemaining - 1)
    ensures r.timeRemaining == 0 ==> r' == Ended(r)
    ensures r'.timeRemaining < r.timeRemaining || !r'.isRiding
    ensures SameSettings(r, r')
    ensures Consistent(r) ==> Consistent(r')
  {
    if r.timeRemaining > 0 then r.(timeRemaining := r.timeRemaining - 1) else Ended(r)
  }

  /** One timer period: the closure runs once if a timer is scheduled. Time is
      counted in timer periods, and control operations fall between them. */
  function Second(r: RideState): (r': RideState)
    ensures !r.timerActive ==> r' == r
    ensures r.timerActive ==> r' == Ticked(r)
    ensures r'.timeRemaining <= r.timeRemaining
    ensures SameSettings(r, r')
    ensures Consistent(r) ==> Consistent(r')
  {
    if r.timerActive then Ticked(r) else r
  }

  /** The state after `n` timer periods with no control operation in between. */
  function After(r: RideState, n: nat): RideState
    decreases n
  {
    if n == 0 then r else Second(After(r, n - 1))
  }

  /** Timer periods passing never touch the configuration, never put time back
      on the clock, and keep the controller consistent. */
  lemma {:induction false} AfterKeepsSettings(r: RideState, n: nat)
    ensures SameSettings(r, After(r, n))
    ensures After(r, n).timeRemaining <= r.timeRemaining
    ensures Consistent(r) ==> Consistent(After(r, n))
    decreases n
  {
    if n > 0 {
      AfterKeepsSettings(r, n - 1);
    }
  }

  /** Waiting n periods and then m more is waiting n + m periods. */
  lemma {:induction false} AfterAdditive(r: RideState, n: nat, m: nat)
    ensures After(After(r, n), m) == After(r, n + m)
    decreases m
  {
    if m > 0 {
      AfterAdditive(r, n, m - 1);
    }
  }

  /** Without a scheduled timer nothing changes, however long one waits. */
  lemma {:induction false} FrozenWithoutTimer(r: RideState, n: nat)
    requires !r.timerActive
    ensures After(r, n) == r
    decreases n
  {
    if n > 0 {
      FrozenWithoutTimer(r, n - 1);
    }
  }

  /** A running, unpaused ride with t seconds on the clock is still running
      k <= t ticks later, with exactly t - k seconds left. */
  lemma {:induction false} CountsDown(r: RideState, k: nat)
    requires Consistent(r) && r.isRiding && !r.isPaused
    requires k <= r.timeRemaining
    ensures After(r, k) == r.(timeRemaining := r.timeRemaining - k)
    decreases k
  {
    if k > 0 {
      CountsDown(r, k - 1);
    }
  }

  /** The same ride has ended once more ticks than its clock held have gone
      by: the tick that finds zero ends it, and it stays ended. */
  lemma EndsAfterZero(r: RideState, k: nat)
    requires Consistent(r) && r.isRiding && !r.isPaused
    requires k > r.timeRemaining
    ensures After(r, k) == Ended(r)
  {
    var t := r.timeRemaining;
    CountsDown(r, t);
    assert After(r, t + 1) == Ended(r);
    FrozenWithoutTimer(Ended(r), k - (t + 1));
    AfterAdditive(r, t + 1, k - (t + 1));
  }

  /** The whole timed ride: with D = rideDurationMinutes * 60, the ride is still
      on after D ticks with the clock at zero, and ends on tick D + 1, not
      before. */
  lemma RideTimeline(r: RideState, k: nat)
    ensures After(Started(r), k).isRiding <==> k <= r.rideDurationMinutes * SecondsPerMinute
    ensures k <= r.rideDurationMinutes * SecondsPerMinute ==>
      After(Started(r), k).timeRemaining == r.rideDurationMinutes * SecondsPerMinute - k
    ensures k > r.rideDurationMinutes * SecondsPerMinute ==> After(Started(r), k) == Ended(r)
  {
    var s := Started(r);
    if k <= s.timeRemaining {
      CountsDown(s, k);
    } else {
      EndsAfterZero(s, k);
      assert Ended(s) == Ended(r);
    }
  }

  /** While paused the clock is frozen: waiting any number of periods changes
      nothing. */
  lemma PausedFreezes(r: RideState, w: nat)
    requires Consistent(r) && r.isPaused
    ensures After(r, w) == r
  {
    FrozenWithoutTimer(r, w);
  }

  /** Pausing after n ticks of a ride, waiting w periods, resuming and riding
      m ticks more ends in the same state as riding n + m ticks without a
      pause. This holds while the ride is still on when paused, and also after
      it has ended as long as at least one tick follows the resume. */
  lemma PauseResumeRoundTrip(r: RideState, n: nat, w: nat, m: nat)
    requires Consistent(r) && r.isRiding && !r.isPaused
    requires n <= r.timeRemaining || m >= 1
    ensures After(Toggled(After(Toggled(After(r, n)), w)), m) == After(r, n + m)
  {
    if n <= r.timeRemaining {
      CountsDown(r, n);
      var s := After(r, n);
      FrozenWithoutTimer(Toggled(s), w);
      assert Toggled(Toggled(s)) == s;
      AfterAdditive(r, n, m);
    } else {
      EndsAfterZero(r, n);
      EndsAfterZero(r, n + m);
      FrozenWithoutTimer(Toggled(Ended(r)), w);
      ResumeAfterEnd(r);
      var resumed := Toggled(Toggled(Ended(r)));
      AfterAdditive(resumed, 1, m - 1);
      FrozenWithoutTimer(Ended(r), m - 1);
    }
  }

  /** The one exception to the round trip: pausing and resuming a ride that
      has already ended, with no tick after the resume, leaves a timer
      scheduled on the ended ride, where the unpaused ride has none. */
  lemma ResumeWithoutTickAfterEnd(r: RideState, n: nat, w: nat)
    requires Consistent(r) && r.isRiding && !r.isPaused
    requires n > r.timeRemaining
    ensures After(Toggled(After(Toggled(After(r, n)), w)), 0) == Ended(r).(timerActive := true)
    ensures !After(r, n).timerActive
  {
    EndsAfterZero(r, n);
    FrozenWithoutTimer(Toggled(Ended(r)), w);
  }

  /** endRide is idempotent. */
  lemma EndIdempotent(r: RideState)
    ensures Ended(Ended(r)) == Ended(r)
  {
  }

  /** Toggling pause twice restores the paused flag and leaves the clock and
      the riding flag alone; during a ride it restores the whole state. */
  lemma ToggleTwice(r: RideState)
    requires Consistent(r)
    ensures Toggled(Toggled(r)).isPaused == r.isPaused
    ensures Toggled(Toggled(r)).timeRemaining == r.timeRemaining
    ensures Toggled(Toggled(r)).isRiding == r.isRiding
    ensures r.isRiding ==> Toggled(Toggled(r)) == r
  {
  }

  /** Pausing and resuming an ended ride schedules a timer again; its first
      tick finds the clock at zero and ends the ride once more. */
  lemma ResumeAfterEnd(r: RideState)
    ensures Toggled(Toggled(Ended(r))).timerActive
    ensures After(Toggled(Toggled(Ended(r))), 1) == Ended(r)
  {
  }

  /** The controller does not keep "paused implies riding": togglePause on an
      idle controller leaves it paused and not riding. */
  lemma PauseWhileIdle()
    ensures Toggled(Initial()).isPaused && !Toggled(Initial()).isRiding
  {
  }

  class RideSettings {
    var bpm: int
    var rideDurationMinutes: nat
    var timeRemaining: nat
    var isRiding: bool
    var isPaused: bool
    /** A repeating one-second timer is scheduled. */
    var timerActive: bool

    function State(): RideState
      reads this
    {
      RideState(bpm, rideDurationMinutes, timeRemaining, isRiding, isPaused, timerActive)
    }

    ghost predicate Valid()
      reads this
    {
      Consistent(State())
    }

    constructor ()
      ensures State() == Initial() && Valid()
    {
      bpm := DefaultBpm;
      rideDurationMinutes := DefaultDurationMinutes;
      timeRemaining := 0;
      isRiding := false;
      isPaused := false;
      timerActive := false;
    }

    method StartRide()
      modifies this
      ensures State() == Started(old(State())) && Valid()
    {
      timeRemaining := rideDurationMinutes * SecondsPerMinute;
      isRiding := true;
      isPaused := false;
      StartTimer();
    }

    method TogglePause()
      modifies this
      ensures State() == Toggled(old(State()))
      ensures old(Valid()) ==> Valid()
    {
      isPaused := !isPaused;
      if isPaused {
        StopTimer();
      } else {
        StartTimer();
      }
    }

    method EndRide()
      modifies this
      ensures State() == Ended(old(State())) && Valid()
    {
      StopTimer();
      isRiding := false;
      isPaused := false;
      timeRemaining := 0;
    }

    /** The body of the timer's closure, run once per second while scheduled. */
    method Tick()
      requires timerActive
      modifies this
      ensures State() == Ticked(old(State()))
      ensures old(Valid()) ==> Valid()
    {
      if timeRemaining > 0 {
        timeRemaining := timeRemaining - 1;
      } else {
        EndRide();
      }
    }

    method StartTimer()
      modifies this`timerActive
      ensures timerActive
    {
      timerActive := true;
    }

    method StopTimer()
      modifies this`timerActive
      ensures !timerActive
    {
      timerActive := false;
    }
  }
}

=== FILE: timed_ride_setup.dfy ===
/** The timed-ride setup screen (TimedRideSetupView.swift): a cadence stepper
    on the screen's own RideSettings controller, a duration picker offering 1 to
    180 minutes, and a start button that starts the ride. */
module TimedRideSetupView {
  import opened Ride
  import opened Cadence

  const MinDurationMinutes := 1
  const MaxDurationMinutes := 180

  /** The minus button is disabled at or below the minimum cadence. */
  predicate MinusDisabled(bpm: int) {
    bpm <= MinCadence
  }

  /** The plus button is disabled at or above the maximum cadence. */
  predicate PlusDisabled(bpm: int) {
    bpm >= MaxCadence
  }

  /** Each button is disabled exactly when its action would have no effect, so
      the guard inside the action and the disabled state agree. */
  lemma DisabledIffNoEffect(bpm: int)
    ensures MinusDisabled(bpm) <==> StepDown(bpm) == bpm
    ensures PlusDisabled(bpm) <==> StepUp(bpm) == bpm
  {
  }

  /** With a length the picker offers, starting a ride loads between one minute
      and three hours onto the clock. */
  lemma StartedClockBounds(r: RideState)
    requires MinDurationMinutes <= r.rideDurationMinutes <= MaxDurationMinutes
    ensures 60 <= Started(r).timeRemaining <= 10800
  {
  }

  class TimedRideSetup {
    const settings: RideSettings
    var navigateToRide: bool

    ghost predicate Valid()
      reads this, settings
    {
      && settings.Valid()
      && InRange(settings.bpm)
      && MinDurationMinutes <= settings.rideDurationMinutes <= MaxDurationMinutes
    }

    constructor ()
      ensures Valid() && fresh(settings)
      ensures settings.State() == Initial() && !navigateToRide
    {
      settings := new RideSettings();
      navigateToRide := false;
    }

    /** The minus button's action: only the cadence changes. */
    method MinusTapped()
      requires Valid()
      modifies settings
      ensures Valid()
      ensures settings.State() == old(settings.State()).(bpm := StepDown(old(settings.bpm)))
    {
      if settings.bpm > MinCadence {
        settings.bpm := settings.bpm - CadenceStep;
      }
    }

    /** The plus button's action: only the cadence changes. */
    method PlusTapped()
      requires Valid()
      modifies settings
      ensures Valid()
      ensures settings.State() == old(settings.State()).(bpm := StepUp(old(settings.bpm)))
    {
      if settings.bpm < MaxCadence {
        settings.bpm := settings.bpm + CadenceStep;
      }
    }

    /** The duration picker selects one of the minutes it lists. */
    method PickDuration(minutes: nat)
      requires Valid()
      requires MinDurationMinutes <= minutes <= MaxDurationMinutes
      modifies settings
      ensures Valid()
      ensures settings.State() == old(settings.State()).(rideDurationMinutes := minutes)
    {
      settings.rideDurationMinutes := minutes;
    }

    /** The start button: starts the ride and navigates to the ride display. */
    method StartTapped()
      requires Valid()
      modifies this, settings
      ensures Valid() && navigateToRide
      ensures settings.State() == Started(old(settings.State()))
      ensures 60 <= settings.timeRemaining <= 10800
    {
      settings.StartRide();
      StartedClockBounds(old(settings.State()));
      navigateToRide := true;
    }
  }
}
